=== FILE: README.md ===
# Hodgkin lymphoma treatment-schedule planner, modelled in Dafny

The repository plans a chemotherapy schedule twice: once as a console program
(`Code.c`) and once as a Flask web application (`lymphoma_web/app.py`). Both
versions do the same three things:

- They pick one of four preset regimens (ABVD, Stanford V, A + AVD, BEACOPP) from
  the disease stage, heart and lung health and the bulky-tumour flag.
- They derive the first cycle's schedule from the regimen's weeks per cycle:
  five treatment days and two break days per week.
- They refine that schedule.
  - The console program runs a simulated-annealing search over the pair
    (treatment days, break days). The cost of a pair is `treatment + 0.5·break`.
    After that it adjusts the schedule once per cycle from the patient's
    readings, until the regimen's cycles are done or the clinician stops.
  - The web application adjusts the schedule each time its results form is
    posted. Its rules use the same thresholds, but as an `if/elif`, so at most
    one of them fires. It defines an annealing search too, but no route
    calls it.

The model has five modules:

- `Schedule` (`schedule.dfy`) holds what both versions share:
  - the patient record, both as a value (`Patient`) and as the mutable record
    the programs update in place (`PatientData`);
  - the regimen table, the cost, the floor at zero and the annealing
    neighbour;
  - the two response rules.
- `Cooling` (`cooling.dfy`) is the C search's geometric cooling in exact
  arithmetic. It proves when the search stops.
- `CProgram` (`code_c.dfy`) is `Code.c`, including its `main` loop over the
  cycles.
- `WebApp` (`app_py.dfy`) is `lymphoma_web/app.py`.
- `Versions` (`versions.dfy`) states where the two versions agree and where
  they differ.

## How the random source and the console are modelled

The random source is passed in as a function from the iteration number to
that iteration's draws, `nat -> Draw`. It holds:

- the two offsets in [-2, 2], as a subset type;
- for C, the value of `rand() / RAND_MAX` in [0, 1];
- a boolean standing for "the draw fell below `exp(Δ / temp)`". In C, a
  draw source is a `Sample`: when that boolean holds the draw is below 1.0,
  because `exp` of a negative number is below 1.0.

`exp` itself is not modelled. So every property proved about the searches
holds for every random sequence. The console prompts are replaced the same way:

- the intake answers become parameters;
- the clinician's yes/no before cycle `k` is `answers(k)`;
- the eight readings entered in cycle `k` are `responses(k)`.

## Behaviour the model pins down

- **The C search always stops after 270 iterations.** The temperature starts at
  1000.0 and is multiplied by 0.95 before each iteration. It first falls below
  0.001 after the 270th multiplication, so the loop's bound of 1000 is never
  reached. `CProgram.Anneal` proves this in exact rational arithmetic, using the
  bounds in `Cooling`. The margins are about 1.8% above the threshold
  after 269 coolings (1000·0.95^269 ≈ 1.0178e-3) and about 3.3% below it
  after 270 (1000·0.95^270 ≈ 9.669e-4). The rounding of 270
  double-precision products is many orders of magnitude smaller than that.
- **The C search can reject a cheaper candidate.** C accepts a candidate when
  `rand() / RAND_MAX < acceptance_prob`, and that draw can be exactly 1.0. So
  a strictly cheaper candidate is rejected when the draw is 1.0.
- **The two searches compare against different costs.** C compares the
  candidate with the *current* cost. Python compares it with the *best* cost.
- **Both searches are a fold over the draws.** `CProgram.Run` and
  `WebApp.Run` apply one iteration (`Step`) per draw. Each loop is proved to
  return the best state of that fold. Lemmas about the fold then say that:
  - the best cost never rises;
  - the best changes only to an accepted candidate that is strictly cheaper
    than the old best;
  - the search ends on its start exactly when no iteration improved on it.
- **Python's search does not mutate its argument.** It returns either its
  argument object itself or a fresh, strictly cheaper candidate.
- **The per-cycle rules differ.** C applies its two rules as independent `if`s,
  so both can fire: a low white-cell count alongside high tolerance and
  recovery and a shrinking tumour. Python uses `if/elif`. From (20, 8) such a
  reading gives (19, 9) in C and (18, 10) in Python.

The model follows the code where it differs from a plain description of the
algorithm:

- The annealing constants (1000.0, 0.95, 1000 iterations, 0.001, offsets of
  ±2) are fixed, as in the source, not a configuration.
- A "downhill" move in C is accepted unless the draw is 1.0, not always.
- A candidate of equal cost is accepted as a downhill one would be, because
  `exp(0)` is exactly 1.0.

## Model

| member | source | states |
|---|---|---|
| `Schedule.PatientData.constructor` | lymphoma_web/app.py:8-18 | the new record holds the four intake answers and the five further fields, each defaulting to zero |
| `Schedule.PatientData.Assign` | Code.c:166 | struct assignment `*data = best_data`: afterwards the record holds exactly the given value |
| `Schedule.ChooseRegimen` | Code.c:82-104 | ABVD only for early-stage non-bulky disease with heart and lung above 60; Stanford V only for early-stage bulky disease above 50; A + AVD only for stage above 2 above 50; heart or lung at or below 50 always gives BEACOPP |
| `Schedule.RegimenIsFirstMatch` | lymphoma_web/app.py:20-36 | each regimen is chosen if and only if its own condition holds and no earlier one does; BEACOPP is the fallback |
| `Schedule.RegimenStableUnderRecovery` | Code.c:83-97 | healthier heart and lungs never change a regimen other than BEACOPP |
| `Schedule.InitialScheduleOfRegimen` | Code.c:106-109 | every preset's initial schedule is (20,8), (15,6) or (30,12), and costs 6 per week of the cycle |
| `Schedule.Cost` | Code.c:111-115 | twice the cost is the integer 2·treatment + break (the cost is exact); it is non-negative on non-negative schedules |
| `Schedule.CostStrictlyIncreasing` | lymphoma_web/app.py:42-43 | more days of either kind, and no fewer of the other, cost strictly more |
| `Schedule.CostExamples` | Code.c:114 | (20,8) costs 24.0 and (0,0) costs 0.0 |
| `Schedule.Clamp` | Code.c:135-136 | the floor is at least its argument and is either the argument or zero |
| `Schedule.Neighbour` | Code.c:130-136 | a candidate differs from the current state only in the schedule; both fields are ≥ 0; an unclamped field moves by exactly its offset and a field pushed below zero becomes exactly 0; from a non-negative state each field moves by at most 2 |
| `Schedule.BothRulesCanFire` | Code.c:197-201 | a reading exists (wbc 3, tolerance and recovery 80, tumour -5) for which the poor-response and good-response rules both hold |
| `Schedule.PoorResponse` | Code.c:197 | a response is poor when tolerance or recovery is below 50, wbc below 4, rbc below 3, platelets below 100, or heart or lung health below 50 (the same test as lymphoma_web/app.py line 114) |
| `Schedule.GoodResponse` | Code.c:201 | a response is good when the tumour shrank and tolerance and recovery are both above 70 (the same test as lymphoma_web/app.py line 117) |
| `Cooling.ColdAtColdIteration` | Code.c:118-127 | after 270 coolings by 0.95 from 1000.0 the temperature is below 0.001 |
| `Cooling.WarmBeforeColdIteration` | Code.c:161-163 | after fewer than 270 coolings the temperature is still at least 0.001, so the loop does not break earlier |
| `CProgram.DownhillAcceptedUnlessTopDraw` | Code.c:141-150 | a strictly cheaper candidate is accepted if and only if the draw `rand()/RAND_MAX` is not exactly 1.0 |
| `CProgram.Accepts` | Code.c:141-150 | the acceptance test against the current cost: a candidate no dearer than the current state is taken when the draw is below 1.0, because `exp(0)` is 1.0; a dearer one when the draw fell below the Boltzmann factor |
| `CProgram.Step` | Code.c:127-158 | one iteration: the best cost never rises, and the best either stays or becomes the new current state, strictly cheaper than before |
| `CProgram.Run` | Code.c:122-158 | the search state after n iterations from `*data`, one `Step` per draw |
| `CProgram.RunInvariant` | Code.c:150-157 | after any number of iterations only the schedule has moved, the best costs no more than the current state, and the best is the start itself or strictly cheaper and non-negative |
| `CProgram.BestCostNeverRises` | Code.c:154-157 | the best cost after n iterations is at most the best cost after any m ≤ n iterations |
| `CProgram.BestReplacedOnlyByImprovement` | Code.c:150-157 | the best changes at an iteration only if its candidate is accepted and strictly cheaper than the old best, and in that case it becomes that candidate |
| `CProgram.CheaperThanBestBecomesBest` | Code.c:142-157 | a candidate strictly cheaper than the best becomes the new best whenever the draw is not exactly 1.0 |
| `CProgram.ImprovementIsKept` | Code.c:154-157 | once an iteration improves on the best, every later best is strictly cheaper than the start |
| `CProgram.NoImprovementKeepsStart` | Code.c:123 | if no iteration improves on the best, the best is still the start |
| `CProgram.BestIsStartUnlessImproved` | Code.c:150-166 | the search leaves `*data` as it was if and only if no iteration accepted a candidate strictly cheaper than the best |
| `CProgram.FirstDrawImproves` | Code.c:130-157 | from (20,8), a first draw of offsets (-2,-2) with `rand()` at 0 makes (18,6) the best, so the final best costs at most 21, below the start's 24 |
| `CProgram.ChooseTreatmentMethod` | Code.c:82-104 | writes the chosen regimen's cycles, weeks per cycle and break weeks, and nothing else |
| `CProgram.GenerateInitialSchedule` | Code.c:106-109 | sets treatment days to 5·weeks and break days to 2·weeks, and nothing else |
| `CProgram.Anneal` | Code.c:117-164 | for every random sequence, the loop runs exactly 270 of its at most 1000 iterations and returns the best state of `Run` after those 270 iterations; that state differs from the start only in the schedule, costs at most the start, and is the start itself or strictly cheaper and non-negative |
| `CProgram.Iterate` | Code.c:130-158 | one loop body after the cooling moves the pair (current, best) exactly as `Step` does and keeps the cached best cost equal to the best state's cost |
| `CProgram.SimulatedAnnealing` | Code.c:117-167 | overwrites `*data` with the best state of `Run` after 270 iterations from the old `*data`; it differs only in the schedule, costs no more, and is either unchanged or strictly cheaper and non-negative |
| `CProgram.Adjusted` | Code.c:196-208 | the adjusted schedule differs only in its two fields and both are ≥ 0 |
| `CProgram.AdjustNextCycle` | Code.c:169-209 | the in-place sequence of two independent rules and the floor at zero leaves the record equal to `Adjusted` of the old record |
| `CProgram.AdjustedCases` | Code.c:197-208 | poor only gives (t-2, b+2), good only (t+1, b-1), both (t-1, b+1), neither (t, b), each floored once at zero |
| `CProgram.AdjustedKeepsCycleLength` | Code.c:197-204 | away from the floor an adjustment keeps treatment + break days constant |
| `CProgram.AfterCycles` | Code.c:50-57 | any number of cycles leaves everything but the schedule unchanged, and after at least one cycle (or from a non-negative start) both fields are ≥ 0 |
| `CProgram.AfterCyclesCompose` | Code.c:51-57 | n cycles followed by k further cycles on the later readings equal n + k cycles |
| `CProgram.RunTreatment` | Code.c:28-66 | the optimised record is the best state of `Run` after 270 iterations from the initial schedule (5·weeks, 2·weeks) of the chosen regimen, so it carries that regimen, is non-negative and costs at most 6·weeks; the adjustment runs `cycle - 1 ≤ num_cycles` times and the final record is `AfterCycles` of the optimised one; every earlier answer was yes and, when the loop stopped early, the answer before `cycle` was no; "all cycles completed" is reported if and only if the clinician answered yes before each of the `num_cycles` cycles |
| `CProgram.TreatmentCycles` | Code.c:50-63 | the loop stops at cycle 1 or at most one past the last cycle; it stops at the first "no": every earlier answer was yes, and if `cycle ≤ num_cycles` the answer before `cycle` was no; the record is `AfterCycles` of the record on entry, after `cycle - 1` adjustments; "all cycles completed" is reported exactly when `cycle > num_cycles`, which holds exactly when every answer up to `num_cycles` was yes |
| `WebApp.CheaperThanBestAccepted` | lymphoma_web/app.py:74-78 | a candidate strictly cheaper than the best cost is accepted whatever the draw |
| `WebApp.Accepts` | lymphoma_web/app.py:74 | the acceptance test against the best cost: a candidate strictly cheaper than the best, or tying it, is always taken (`exp(0)` beats every `random.random()`); a dearer one only when the Boltzmann test succeeds |
| `WebApp.Step` | lymphoma_web/app.py:55-78 | one iteration: the best cost never rises, and the best either stays or becomes the new current state, strictly cheaper than before |
| `WebApp.Run` | lymphoma_web/app.py:50-78 | the search state after n iterations from the argument, one `Step` per draw |
| `WebApp.RunInvariant` | lymphoma_web/app.py:74-78 | after any number of iterations only the schedule has moved, the best costs no more than the current state, and the best is the start itself or strictly cheaper and non-negative |
| `WebApp.BestCostNeverRises` | lymphoma_web/app.py:76-78 | the best cost after n iterations is at most the best cost after any m ≤ n iterations |
| `WebApp.BestReplacedExactlyByImprovement` | lymphoma_web/app.py:74-78 | the best changes at an iteration if and only if its candidate is strictly cheaper than the old best, and then it becomes that candidate, whatever the draw |
| `WebApp.ImprovementIsKept` | lymphoma_web/app.py:76-78 | once an iteration improves on the best, every later best is strictly cheaper than the start |
| `WebApp.NoImprovementKeepsStart` | lymphoma_web/app.py:51 | if no candidate is ever cheaper than the best, the best is still the argument's value |
| `WebApp.BestIsStartUnlessImproved` | lymphoma_web/app.py:50-80 | the search returns the argument's value if and only if no candidate was ever strictly cheaper than the best so far |
| `WebApp.FirstDrawImproves` | lymphoma_web/app.py:57-78 | from (20,8), first offsets of (-2,-2) make (18,6) the best whatever the Boltzmann test says, so the final best costs at most 21, below the start's 24 |
| `WebApp.Iterate` | lymphoma_web/app.py:57-78 | one loop body on objects: a fresh candidate object is built, and the references `current` and `best` move exactly as `Step` says; no existing object is written |
| `WebApp.ChooseTreatmentMethod` | lymphoma_web/app.py:20-36 | writes the chosen regimen's triple with the same first-match order, and nothing else |
| `WebApp.GenerateInitialSchedule` | lymphoma_web/app.py:38-40 | sets treatment days to 5·w and break days to 2·w, and nothing else |
| `WebApp.SimulatedAnnealing` | lymphoma_web/app.py:45-80 | runs exactly 1000 iterations and returns an object holding the best state of `Run` after them; it mutates no pre-existing object, the argument included; it returns the argument itself exactly when that best state is the argument's value, and otherwise a fresh, strictly cheaper, non-negative candidate that differs only in the schedule |
| `WebApp.Adjusted` | lymphoma_web/app.py:114-122 | the adjusted schedule differs only in its two fields and both are ≥ 0 |
| `WebApp.AdjustedCases` | lymphoma_web/app.py:114-122 | a poor response gives (t-2, b+2) whatever else holds; otherwise a good one gives (t+1, b-1); otherwise nothing changes; then the floor at zero |
| `WebApp.Index` | lymphoma_web/app.py:82-96 | the stored session is the intake answers with the chosen regimen and the schedule (5·w, 2·w), which is non-negative in the ratio 5 : 2 |
| `WebApp.TreatmentResults` | lymphoma_web/app.py:100-128 | a plain request leaves the session unchanged; a posted form stores `Adjusted` of the session; only the schedule can change |
| `Versions.AdjustmentsAgreeUnlessBothFire` | lymphoma_web/app.py:114-119 | on a schedule with non-negative break days, the C and Python adjustments agree if and only if the two rules do not fire together |
| `Versions.DivergingAdjustment` | Code.c:197-208 | from (20,8) with tolerance 80, recovery 80, wbc 3 and tumour -5, C gives (19,9) and Python (18,10) |
| `Versions.AgreeingAdjustments` | lymphoma_web/app.py:114-122 | from (20,8), tolerance 40 gives (18,10) in both versions; an all-healthy shrinking response gives (21,7) in both |
| `Versions.CheaperThanBestAcceptedByBoth` | lymphoma_web/app.py:74-78 | a candidate cheaper than the best (hence than the current state) is accepted by Python always and by C unless its draw is 1.0 |
| `Versions.AcceptanceReferencesDiffer` | Code.c:142-150 | a candidate cheaper than the current state but dearer than the best is certain in C and depends on the draw in Python |

## Left out

- Console I/O is not modelled: `get_patient_data`, every `printf`/`scanf` prompt and `ask_continue_treatment`. They become parameters (the intake answers, `answers`, `responses`).
- The random number generators are not modelled (`srand(time(NULL))`, `rand()`, `random.randint`, `random.random`). They become an injected `nat -> Draw`. The modulo bias of `rand() % 5` is not modelled.
- `exp` and the Boltzmann comparison for dearer candidates are an oracle boolean. In C it is tied to the modelled draw only by `Sample`: it can hold only when the draw is below 1.0. The model does not capture that the probability of acceptance shrinks as the temperature falls.
- Floating point is not modelled. The C temperature is an exact rational, and the costs are exact in double precision anyway. The Python search's `temp` feeds only `exp`, so it is not modelled.
- `treatment_results` raises `KeyError` when no session has been stored yet, that is before any intake form was posted to `/` (lymphoma_web/app.py:102). `WebApp.TreatmentResults` takes the session as a given `Patient`, so that error path is not modelled.
- The Flask layer is not modelled: the routes' rendering and redirects, session serialisation, the secret key, templates and `app.run`. The `int(...)` parsing of form fields and its `ValueError` on bad input are left out too. The session is a `Patient` value.
- `lymphoma_web/static/script.js` is front-end DOM code with no planning logic.
- C's 32-bit `int` is unbounded here. No reachable value comes near the limit: presets give at most 30 days, the search moves a field by at most 2 for 270 iterations, and there are at most 12 cycles of ±2. The intake values are only compared.
- C's `PatientData data;` leaves the regimen and schedule fields uninitialised until `choose_treatment_method` and `generate_initial_schedule` set them. The model starts them at zero, and no field is read before it is written.
- The medical validity of the thresholds is not modelled.

=== FILE: app_py.dfy ===
/**
 * The web planner of lymphoma_web/app.py: the same regimen table and initial
 * schedule, its own annealing search (which never mutates its argument and
 * compares against the best cost), and the adjustment applied when the
 * treatment-results form is posted. The session is a Patient value.
 */
module WebApp {
  import opened Schedule

  /** What one iteration takes from the random source: the two offsets
      `random.randint(-2, 2)` and, standing in for
      `math.exp((best_cost - new_cost) / temp) > random.random()` on a
      candidate that is dearer than the best, whether that test succeeded. */
  datatype Draw = Draw(dt: Offset, db: Offset, belowBoltzmann: bool)

  const MaxIterations: nat := 1000

  /** The acceptance test, against the best cost so far. On a tie the factor
      is exp(0) = 1.0, which beats every value of `random.random()` in [0, 1),
      so only a dearer candidate depends on the draw. */
  predicate Accepts(bestCost: real, newCost: real, d: Draw)
  {
    newCost < bestCost || newCost == bestCost || d.belowBoltzmann
  }

  /** A candidate strictly cheaper than the best is always taken, whatever the draw. */
  lemma CheaperThanBestAccepted(bestCost: real, newCost: real, d: Draw)
    requires newCost < bestCost
    ensures Accepts(bestCost, newCost, d)
  {
  }

  /** `choose_treatment_method`: the same first-match table as the console planner. */
  method ChooseTreatmentMethod(data: PatientData)
    modifies data
    ensures var g := ChooseRegimen(old(data.stage), old(data.heartHealth), old(data.lungHealth), old(data.bulkyTumors));
      data.Value() == old(data.Value()).(numCycles := g.Cycles(), weeksPerCycle := g.WeeksPerCycle(),
                                         breakWeeks := g.BreakWeeks())
  {
    if data.stage <= 2 && data.heartHealth > 60 && data.lungHealth > 60 && data.bulkyTumors == 0 {
      data.numCycles := 6;
      data.weeksPerCycle := 4;
      data.breakWeeks := 1;
    } else if data.stage <= 2 && data.heartHealth > 50 && data.lungHealth > 50 && data.bulkyTumors != 0 {
      data.numCycles := 12;
      data.weeksPerCycle := 3;
      data.breakWeeks := 0;
    } else if data.stage > 2 && data.heartHealth > 50 && data.lungHealth > 50 {
      data.numCycles := 4;
      data.weeksPerCycle := 6;
      data.breakWeeks := 2;
    } else {
      data.numCycles := 8;
      data.weeksPerCycle := 3;
      data.breakWeeks := 1;
    }
  }

  /** `generate_initial_schedule`: five treatment days and two break days per week. */
  method GenerateInitialSchedule(data: PatientData)
    modifies data
    ensures data.Value() == old(data.Value()).(treatmentDays := 5 * old(data.weeksPerCycle),
                                               breakDays := 2 * old(data.weeksPerCycle))
  {
    data.treatmentDays := data.weeksPerCycle * 5;
    data.breakDays := data.weeksPerCycle * 2;
  }

  /** The candidate one iteration builds from the current state. */
  function Candidate(s: Search, d: Draw): Patient
  {
    Neighbour(s.current, d.dt, d.db)
  }

  /** The iteration keeps a new best: its candidate is strictly cheaper than
      the best so far, and so accepted whatever the draw. */
  predicate Improves(s: Search, d: Draw)
  {
    Cost(Candidate(s, d)) < Cost(s.best)
  }

  /** One iteration of the loop: an accepted candidate becomes the current
      state, and also the best one when it is strictly cheaper. */
  function Step(s: Search, d: Draw): (t: Search)
    ensures Cost(t.best) <= Cost(s.best)
    ensures t.best == s.best || (t.best == t.current && Cost(t.best) < Cost(s.best))
  {
    var candidate := Candidate(s, d);
    if !Accepts(Cost(s.best), Cost(candidate), d) then s
    else if Cost(candidate) < Cost(s.best) then Search(candidate, candidate)
    else Search(candidate, s.best)
  }

  /** The search after n iterations, from `start`, on the draws of `source`. */
  function Run(start: Patient, source: nat -> Draw, n: nat): Search
  {
    if n == 0 then Search(start, start) else Step(Run(start, source, n - 1), source(n - 1))
  }

  /** What every iteration keeps: only the schedule moves, the best costs no
      more than the current state, and the best is the start itself or a
      strictly cheaper non-negative state. */
  lemma {:induction false} RunInvariant(start: Patient, source: nat -> Draw, n: nat)
    ensures var s := Run(start, source, n);
      && OnlyScheduleDiffers(start, s.current) && OnlyScheduleDiffers(start, s.best)
      && Cost(s.best) <= Cost(s.current)
      && (s.best == start || (Cost(s.best) < Cost(start) && NonNegative(s.best)))
  {
    if n > 0 {
      RunInvariant(start, source, n - 1);
    }
  }

  /** The best cost never goes up, however many iterations are added. */
  lemma {:induction false} BestCostNeverRises(start: Patient, source: nat -> Draw, m: nat, n: nat)
    requires m <= n
    ensures Cost(Run(start, source, n).best) <= Cost(Run(start, source, m).best)
    decreases n - m
  {
    if m < n {
      BestCostNeverRises(start, source, m, n - 1);
    }
  }

  /** The best changes exactly at an iteration whose candidate is strictly
      cheaper than the old best, and then it becomes that candidate: unlike
      the console planner, no draw can turn such a candidate down. */
  lemma BestReplacedExactlyByImprovement(start: Patient, source: nat -> Draw, n: nat)
    ensures var s, d := Run(start, source, n), source(n);
      && (Run(start, source, n + 1).best != s.best <==> Improves(s, d))
      && (Improves(s, d) ==> Run(start, source, n + 1).best == Candidate(s, d))
  {
  }

  /** Iteration k of the search from `start` keeps a new best. */
  predicate ImprovesAt(start: Patient, source: nat -> Draw, k: nat)
  {
    Improves(Run(start, source, k), source(k))
  }

  /** Once an iteration improves on the best, the best stays strictly
      cheaper than the start. */
  lemma ImprovementIsKept(start: Patient, source: nat -> Draw, k: nat, n: nat)
    requires k < n && ImprovesAt(start, source, k)
    ensures Cost(Run(start, source, n).best) < Cost(start)
  {
    BestCostNeverRises(start, source, 0, k);
    BestCostNeverRises(start, source, k + 1, n);
  }

  /** Without an improving iteration the best is still the start. */
  lemma {:induction false} NoImprovementKeepsStart(start: Patient, source: nat -> Draw, n: nat)
    requires forall k :: 0 <= k < n ==> !ImprovesAt(start, source, k)
    ensures Run(start, source, n).best == start
  {
    if n > 0 {
      NoImprovementKeepsStart(start, source, n - 1);
      assert !ImprovesAt(start, source, n - 1);
    }
  }

  /** The search ends on its start exactly when no candidate was ever cheaper
      than the best so far. */
  lemma BestIsStartUnlessImproved(start: Patient, source: nat -> Draw, n: nat)
    ensures Run(start, source, n).best == start
        <==> forall k :: 0 <= k < n ==> !ImprovesAt(start, source, k)
  {
    if forall k :: 0 <= k < n ==> !ImprovesAt(start, source, k) {
      NoImprovementKeepsStart(start, source, n);
    } else {
      var k :| 0 <= k < n && ImprovesAt(start, source, k);
      ImprovementIsKept(start, source, k, n);
    }
  }

  /** From (20, 8), a first draw of (-2, -2) is taken whatever the Boltzmann
      test says, and leaves a best of cost at most 21, whatever follows. */
  lemma FirstDrawImproves(start: Patient, source: nat -> Draw)
    requires start.treatmentDays == 20 && start.breakDays == 8
    requires source(0) == Draw(-2, -2, false)
    ensures Run(start, source, 1).best == start.(treatmentDays := 18, breakDays := 6)
    ensures Cost(Run(start, source, MaxIterations).best) <= 21.0 < Cost(start)
  {
    BestCostNeverRises(start, source, 1, MaxIterations);
  }

  /** `simulated_annealing`: exactly 1000 iterations, each building a fresh
      candidate object. It writes to no object that existed before the call
      and returns the best state of `Run` after 1000 iterations: its argument
      itself when no candidate beat it, or else a fresh, strictly cheaper
      candidate that differs only in the schedule. */
  method SimulatedAnnealing(data: PatientData, source: nat -> Draw) returns (best: PatientData, ghost rounds: nat)
    ensures rounds == MaxIterations
    ensures best.Value() == Run(data.Value(), source, rounds).best
    ensures best == data || fresh(best)
    ensures best == data <==> best.Value() == data.Value()
    ensures OnlyScheduleDiffers(data.Value(), best.Value())
    ensures Cost(best.Value()) <= Cost(data.Value())
    ensures best == data || (Cost(best.Value()) < Cost(data.Value()) && NonNegative(best.Value()))
  {
    ghost var start := data.Value();
    var current := data;
    best := data;
    var bestCost := Cost(best.Value());
    var i := 0;
    while i < MaxIterations
      invariant i <= MaxIterations
      invariant current == data || fresh(current)
      invariant best == data || fresh(best)
      invariant data.Value() == start
      invariant Search(current.Value(), best.Value()) == Run(start, source, i)
      invariant bestCost == Cost(best.Value())
      invariant best == data || bestCost < Cost(start)
    {
      current, best, bestCost := Iterate(current, best, bestCost, source(i));
      i := i + 1;
    }
    rounds := i;
    RunInvariant(start, source, rounds);
  }

  /** One pass of the loop body: a fresh candidate object built from
      `current`; if accepted, `current` refers to it, and `best` too when it
      is strictly cheaper. Existing objects are left as they were. */
  method Iterate(current: PatientData, best: PatientData, bestCost: real, d: Draw)
    returns (current': PatientData, best': PatientData, bestCost': real)
    requires bestCost == Cost(best.Value())
    ensures Search(current'.Value(), best'.Value()) == Step(Search(current.Value(), best.Value()), d)
    ensures current' == current || fresh(current')
    ensures best' == best || (fresh(best') && bestCost' < bestCost)
    ensures bestCost' == Cost(best'.Value())
  {
    var newData := new PatientData(current.stage, current.heartHealth, current.lungHealth,
                                   current.bulkyTumors, current.numCycles, current.weeksPerCycle,
                                   current.breakWeeks, current.treatmentDays + d.dt,
                                   current.breakDays + d.db);
    if newData.treatmentDays < 0 {
      newData.treatmentDays := 0;
    }
    if newData.breakDays < 0 {
      newData.breakDays := 0;
    }
    assert newData.Value() == Candidate(Search(current.Value(), best.Value()), d);
    var newCost := Cost(newData.Value());
    current', best', bestCost' := current, best, bestCost;
    if Accepts(bestCost, newCost, d) {
      current' := newData;
      if newCost < bestCost {
        best' := newData;
        bestCost' := newCost;
      }
    }
  }

  /** The net effect of the adjustment in `treatment_results`: `if/elif`, so
      a poor response wins and at most one rule fires; then the floor at zero. */
  function Adjusted(p: Patient, r: Response): (q: Patient)
    ensures OnlyScheduleDiffers(p, q) && NonNegative(q)
  {
    var shift := if PoorResponse(r) then -2 else if GoodResponse(r) then 1 else 0;
    p.(treatmentDays := Clamp(p.treatmentDays + shift), breakDays := Clamp(p.breakDays - shift))
  }

  /** The three outcomes of one adjustment. */
  lemma AdjustedCases(p: Patient, r: Response)
    ensures var q, t, b := Adjusted(p, r), p.treatmentDays, p.breakDays;
      && (PoorResponse(r) ==> q.treatmentDays == Clamp(t - 2) && q.breakDays == Clamp(b + 2))
      && (!PoorResponse(r) && GoodResponse(r) ==> q.treatmentDays == Clamp(t + 1) && q.breakDays == Clamp(b - 1))
      && (!PoorResponse(r) && !GoodResponse(r) ==> q.treatmentDays == Clamp(t) && q.breakDays == Clamp(b))
  {
  }

  /** The two requests `treatment_results` answers: a plain page request, or
      a posted form carrying the eight readings. */
  datatype Request = Get | Post(form: Response)

  /** `index` on a posted intake form: a fresh record with zero defaults, the
      regimen and the initial schedule, stored as the session. */
  method Index(stage: int, heartHealth: int, lungHealth: int, bulkyTumors: int) returns (session: Patient)
    ensures var g := ChooseRegimen(stage, heartHealth, lungHealth, bulkyTumors);
      session == Patient(stage, heartHealth, lungHealth, bulkyTumors,
                         g.Cycles(), g.WeeksPerCycle(), g.BreakWeeks(),
                         5 * g.WeeksPerCycle(), 2 * g.WeeksPerCycle())
    ensures NonNegative(session) && session.treatmentDays * 2 == session.breakDays * 5
  {
    var data := new PatientData(stage, heartHealth, lungHealth, bulkyTumors);
    ChooseTreatmentMethod(data);
    GenerateInitialSchedule(data);
    session := data.Value();
  }

  /** `treatment_results`: rebuilds the record from the session; on a posted
      form, adjusts its schedule in place and stores it back. A plain request
      leaves the session as it was. */
  method TreatmentResults(session: Patient, request: Request) returns (saved: Patient)
    ensures request.Get? ==> saved == session
    ensures request.Post? ==> saved == Adjusted(session, request.form)
    ensures OnlyScheduleDiffers(session, saved)
  {
    var data := new PatientData(session.stage, session.heartHealth, session.lungHealth,
                                session.bulkyTumors, session.numCycles, session.weeksPerCycle,
                                session.breakWeeks, session.treatmentDays, session.breakDays);
    if request.Post? {
      var r := request.form;
      if PoorResponse(r) {
        data.treatmentDays := data.treatmentDays - 2;
        data.breakDays := data.breakDays + 2;
      } else if GoodResponse(r) {
        data.treatmentDays := data.treatmentDays + 1;
        data.breakDays := data.breakDays - 1;
      }
      if data.treatmentDays < 0 {
        data.treatmentDays := 0;
      }
      if data.breakDays < 0 {
        data.breakDays := 0;
      }
    }
    saved := data.Value();
  }
}

=== FILE: code_c.dfy ===
/**
 * The console planner of Code.c: regimen choice, the initial schedule, the
 * annealing search, the per-cycle adjustment and the cycle loop of `main`.
 * Console prompts are replaced by parameters: the intake answers, a random
 * source and, per cycle, the clinician's answer and the patient's readings.
 */
module CProgram {
  import opened Schedule
  import opened Cooling

  /** `rand() / RAND_MAX`: a draw from [0, 1], where 1.0 itself is possible. */
  type UnitDraw = r: real | 0.0 <= r <= 1.0

  /** What one annealing iteration takes from the random source: the two
      offsets `rand() % 5 - 2`, the draw `rand() / RAND_MAX`, and, standing in
      for `draw < exp((current_cost - new_cost) / temp)` on an uphill
      candidate, whether the draw fell below the Boltzmann factor. */
  datatype Draw = Draw(dt: Offset, db: Offset, u: UnitDraw, belowBoltzmann: bool)

  const MaxIterations: nat := 1000

  /** The acceptance test, against the cost of the current state. A candidate
      that is no worse has acceptance probability 1.0 (exp(0) is 1.0 exactly),
      so it is taken whenever the draw is below 1.0. */
  predicate Accepts(currentCost: real, newCost: real, d: Draw)
  {
    if newCost <= currentCost then d.u < 1.0 else d.belowBoltzmann
  }

  /** A strictly cheaper candidate is accepted unless the draw is exactly 1.0. */
  lemma DownhillAcceptedUnlessTopDraw(currentCost: real, newCost: real, d: Draw)
    requires newCost < currentCost
    ensures Accepts(currentCost, newCost, d) <==> d.u != 1.0
  {
  }

  /** `choose_treatment_method`: writes the preset of the first matching rule. */
  method ChooseTreatmentMethod(data: PatientData)
    modifies data
    ensures var g := ChooseRegimen(old(data.stage), old(data.heartHealth), old(data.lungHealth), old(data.bulkyTumors));
      data.Value() == old(data.Value()).(numCycles := g.Cycles(), weeksPerCycle := g.WeeksPerCycle(),
                                         breakWeeks := g.BreakWeeks())
  {
    if data.stage <= 2 && data.heartHealth > 60 && data.lungHealth > 60 && data.bulkyTumors == 0 {
      data.numCycles, data.weeksPerCycle, data.breakWeeks := 6, 4, 1;
    } else if data.stage <= 2 && data.heartHealth > 50 && data.lungHealth > 50 && data.bulkyTumors != 0 {
      data.numCycles, data.weeksPerCycle, data.breakWeeks := 12, 3, 0;
    } else if data.stage > 2 && data.heartHealth > 50 && data.lungHealth > 50 {
      data.numCycles, data.weeksPerCycle, data.breakWeeks := 4, 6, 2;
    } else {
      data.numCycles, data.weeksPerCycle, data.breakWeeks := 8, 3, 1;
    }
  }

  /** `generate_initial_schedule`: five treatment days and two break days per week. */
  method GenerateInitialSchedule(data: PatientData)
    modifies data
    ensures data.Value() == old(data.Value()).(treatmentDays := 5 * old(data.weeksPerCycle),
                                               breakDays := 2 * old(data.weeksPerCycle))
  {
    data.treatmentDays := data.weeksPerCycle * 5;
    data.breakDays := data.weeksPerCycle * 2;
  }

  /** A draw `rand()` can actually produce together with the exponential:
      the factor `exp` of a negative exponent is below 1.0, so a dearer
      candidate can only pass with a draw below 1.0. */
  type Sample = d: Draw | d.belowBoltzmann ==> d.u < 1.0 witness Draw(0, 0, 0.0, false)

  /** The candidate one iteration builds from the current state. */
  function Candidate(s: Search, d: Draw): Patient
  {
    Neighbour(s.current, d.dt, d.db)
  }

  /** The iteration keeps a new best: its candidate is accepted and strictly
      cheaper than the best so far. */
  predicate Improves(s: Search, d: Draw)
  {
    Accepts(Cost(s.current), Cost(Candidate(s, d)), d) && Cost(Candidate(s, d)) < Cost(s.best)
  }

  /** One iteration of the loop: an accepted candidate becomes the current
      state, and also the best one when it is strictly cheaper. */
  function Step(s: Search, d: Draw): (t: Search)
    ensures Cost(t.best) <= Cost(s.best)
    ensures t.best == s.best || (t.best == t.current && Cost(t.best) < Cost(s.best))
  {
    var candidate := Candidate(s, d);
    if !Accepts(Cost(s.current), Cost(candidate), d) then s
    else if Cost(candidate) < Cost(s.best) then Search(candidate, candidate)
    else Search(candidate, s.best)
  }

  /** The search after n iterations, from `start`, on the draws of `source`. */
  function Run(start: Patient, source: nat -> Sample, n: nat): Search
  {
    if n == 0 then Search(start, start) else Step(Run(start, source, n - 1), source(n - 1))
  }

  /** What every iteration keeps: only the schedule moves, the best costs no
      more than the current state, and the best is the start itself or a
      strictly cheaper non-negative state. */
  lemma {:induction false} RunInvariant(start: Patient, source: nat -> Sample, n: nat)
    ensures var s := Run(start, source, n);
      && OnlyScheduleDiffers(start, s.current) && OnlyScheduleDiffers(start, s.best)
      && Cost(s.best) <= Cost(s.current)
      && (s.best == start || (Cost(s.best) < Cost(start) && NonNegative(s.best)))
  {
    if n > 0 {
      RunInvariant(start, source, n - 1);
    }
  }

  /** The best cost never goes up, however many iterations are added. */
  lemma {:induction false} BestCostNeverRises(start: Patient, source: nat -> Sample, m: nat, n: nat)
    requires m <= n
    ensures Cost(Run(start, source, n).best) <= Cost(Run(start, source, m).best)
    decreases n - m
  {
    if m < n {
      BestCostNeverRises(start, source, m, n - 1);
    }
  }

  /** The best changes only at an iteration whose candidate is accepted and
      strictly cheaper than the old best, and then it becomes that candidate. */
  lemma BestReplacedOnlyByImprovement(start: Patient, source: nat -> Sample, n: nat)
    ensures var s, d := Run(start, source, n), source(n);
      && (Run(start, source, n + 1).best != s.best ==> Improves(s, d))
      && (Improves(s, d) ==> Run(start, source, n + 1).best == Candidate(s, d))
  {
  }

  /** A candidate strictly cheaper than the best becomes the new best, unless
      the draw is exactly 1.0. */
  lemma CheaperThanBestBecomesBest(start: Patient, source: nat -> Sample, n: nat)
    requires source(n).u != 1.0
    requires Cost(Candidate(Run(start, source, n), source(n))) < Cost(Run(start, source, n).best)
    ensures Run(start, source, n + 1).best == Candidate(Run(start, source, n), source(n))
  {
    RunInvariant(start, source, n);
  }

  /** Iteration k of the search from `start` keeps a new best. */
  predicate ImprovesAt(start: Patient, source: nat -> Sample, k: nat)
  {
    Improves(Run(start, source, k), source(k))
  }

  /** Once an iteration improves on the best, the best stays strictly
      cheaper than the start. */
  lemma ImprovementIsKept(start: Patient, source: nat -> Sample, k: nat, n: nat)
    requires k < n && ImprovesAt(start, source, k)
    ensures Cost(Run(start, source, n).best) < Cost(start)
  {
    BestCostNeverRises(start, source, 0, k);
    BestCostNeverRises(start, source, k + 1, n);
  }

  /** Without an improving iteration the best is still the start. */
  lemma {:induction false} NoImprovementKeepsStart(start: Patient, source: nat -> Sample, n: nat)
    requires forall k :: 0 <= k < n ==> !ImprovesAt(start, source, k)
    ensures Run(start, source, n).best == start
  {
    if n > 0 {
      NoImprovementKeepsStart(start, source, n - 1);
      assert !ImprovesAt(start, source, n - 1);
    }
  }

  /** The search ends on its start exactly when no iteration improved on the best. */
  lemma BestIsStartUnlessImproved(start: Patient, source: nat -> Sample, n: nat)
    ensures Run(start, source, n).best == start
        <==> forall k :: 0 <= k < n ==> !ImprovesAt(start, source, k)
  {
    if forall k :: 0 <= k < n ==> !ImprovesAt(start, source, k) {
      NoImprovementKeepsStart(start, source, n);
    } else {
      var k :| 0 <= k < n && ImprovesAt(start, source, k);
      ImprovementIsKept(start, source, k, n);
    }
  }

  /** From (20, 8), a first draw of (-2, -2) with `rand()` at 0 is accepted
      and leaves a best of cost at most 21, whatever follows. */
  lemma FirstDrawImproves(start: Patient, source: nat -> Sample)
    requires start.treatmentDays == 20 && start.breakDays == 8
    requires source(0) == Draw(-2, -2, 0.0, false)
    ensures Run(start, source, 1).best == start.(treatmentDays := 18, breakDays := 6)
    ensures Cost(Run(start, source, ColdIteration).best) <= 21.0 < Cost(start)
  {
    BestCostNeverRises(start, source, 1, ColdIteration);
  }

  /** The search loop of `simulated_annealing`, on the struct copies it keeps
      in local variables. `iterations` counts the loop bodies run: the loop
      breaks right after cooling below the threshold, which in exact
      arithmetic happens in the 270th body, long before the bound of 1000.
      The result is the best state of `Run` after those iterations. */
  method Anneal(start: Patient, source: nat -> Sample) returns (best: Patient, iterations: nat)
    ensures iterations == ColdIteration && iterations <= MaxIterations
    ensures best == Run(start, source, iterations).best
    ensures OnlyScheduleDiffers(start, best)
    ensures Cost(best) <= Cost(start)
    ensures best == start || (Cost(best) < Cost(start) && NonNegative(best))
  {
    var temp := InitialTemperature;
    var current := start;
    best := start;
    var bestCost := Cost(best);
    iterations := 0;
    while iterations < MaxIterations
      invariant iterations < ColdIteration
      invariant temp == Temperature(iterations)
      invariant Search(current, best) == Run(start, source, iterations)
      invariant bestCost == Cost(best)
    {
      temp := temp * CoolingRate;
      current, best, bestCost := Iterate(current, best, bestCost, source(iterations));
      iterations := iterations + 1;
      if iterations < ColdIteration {
        WarmBeforeColdIteration(iterations);
      } else {
        ColdAtColdIteration();
      }
      if temp < MinTemperature {
        break;
      }
    }
    RunInvariant(start, source, iterations);
  }

  /** One pass of the loop body after the cooling: a candidate from the
      current state, the acceptance test, and the update of the best. */
  method Iterate(current: Patient, best: Patient, bestCost: real, d: Draw)
    returns (current': Patient, best': Patient, bestCost': real)
    requires bestCost == Cost(best)
    ensures Search(current', best') == Step(Search(current, best), d)
    ensures bestCost' == Cost(best')
  {
    var newData := Candidate(Search(current, best), d);
    var newCost := Cost(newData);
    current', best', bestCost' := current, best, bestCost;
    if Accepts(Cost(current), newCost, d) {
      current' := newData;
      if newCost < bestCost {
        best' := newData;
        bestCost' := newCost;
      }
    }
  }

  /** `simulated_annealing`: searches from `*data` and overwrites it with the best state found. */
  method SimulatedAnnealing(data: PatientData, source: nat -> Sample)
    modifies data
    ensures data.Value() == Run(old(data.Value()), source, ColdIteration).best
    ensures OnlyScheduleDiffers(old(data.Value()), data.Value())
    ensures Cost(data.Value()) <= Cost(old(data.Value()))
    ensures data.Value() == old(data.Value())
         || (Cost(data.Value()) < Cost(old(data.Value())) && NonNegative(data.Value()))
  {
    var best, _ := Anneal(data.Value(), source);
    data.Assign(best);
  }

  /** The net effect of `adjust_next_cycle`: the offsets of the two rules add
      up (both may fire), and the floor at zero is applied once, after both. */
  function Adjusted(p: Patient, r: Response): (q: Patient)
    ensures OnlyScheduleDiffers(p, q) && NonNegative(q)
  {
    var shift := (if PoorResponse(r) then -2 else 0) + (if GoodResponse(r) then 1 else 0);
    p.(treatmentDays := Clamp(p.treatmentDays + shift), breakDays := Clamp(p.breakDays - shift))
  }

  /** `adjust_next_cycle`, with the eight readings passed in instead of read from the console. */
  method AdjustNextCycle(data: PatientData, r: Response)
    modifies data
    ensures data.Value() == Adjusted(old(data.Value()), r)
  {
    if PoorResponse(r) {
      data.treatmentDays := data.treatmentDays - 2;
      data.breakDays := data.breakDays + 2;
    }
    if GoodResponse(r) {
      data.treatmentDays := data.treatmentDays + 1;
      data.breakDays := data.breakDays - 1;
    }
    if data.treatmentDays < 0 {
      data.treatmentDays := 0;
    }
    if data.breakDays < 0 {
      data.breakDays := 0;
    }
  }

  /** The four outcomes of one adjustment. */
  lemma AdjustedCases(p: Patient, r: Response)
    ensures var q, t, b := Adjusted(p, r), p.treatmentDays, p.breakDays;
      && (PoorResponse(r) && !GoodResponse(r) ==> q.treatmentDays == Clamp(t - 2) && q.breakDays == Clamp(b + 2))
      && (!PoorResponse(r) && GoodResponse(r) ==> q.treatmentDays == Clamp(t + 1) && q.breakDays == Clamp(b - 1))
      && (PoorResponse(r) && GoodResponse(r) ==> q.treatmentDays == Clamp(t - 1) && q.breakDays == Clamp(b + 1))
      && (!PoorResponse(r) && !GoodResponse(r) ==> q.treatmentDays == Clamp(t) && q.breakDays == Clamp(b))
  {
  }

  /** Away from the floor, an adjustment only moves days between treatment and
      rest: the length of the cycle is kept. */
  lemma AdjustedKeepsCycleLength(p: Patient, r: Response)
    requires p.treatmentDays >= 2 && p.breakDays >= 1
    ensures Adjusted(p, r).treatmentDays + Adjusted(p, r).breakDays == p.treatmentDays + p.breakDays
  {
  }

  /** The schedule after the first n cycles of `main`, where `responses(k)`
      are the readings entered in cycle k. */
  function AfterCycles(p: Patient, responses: nat -> Response, n: nat): (q: Patient)
    ensures OnlyScheduleDiffers(p, q)
    ensures n > 0 || NonNegative(p) ==> NonNegative(q)
  {
    if n == 0 then p else Adjusted(AfterCycles(p, responses, n - 1), responses(n))
  }

  /** Cycles compose: n cycles followed by k more, fed the later readings,
      end where n + k cycles do. */
  lemma {:induction false} AfterCyclesCompose(p: Patient, responses: nat -> Response, n: nat, k: nat)
    ensures AfterCycles(AfterCycles(p, responses, n), Shifted(responses, n), k)
         == AfterCycles(p, responses, n + k)
  {
    if k > 0 {
      AfterCyclesCompose(p, responses, n, k - 1);
    }
  }

  /** The readings of the cycles after the first n. */
  function Shifted(responses: nat -> Response, n: nat): nat -> Response
  {
    (k: nat) => responses(n + k)
  }

  /** `main` after the intake: choose, initialise, anneal, then adjust cycle by
      cycle while cycles remain and the clinician answers yes. `answers(k)` is
      the answer given before cycle k. `completed` is the branch that reports
      all cycles completed. */
  method RunTreatment(stage: int, heartHealth: int, lungHealth: int, bulkyTumors: int,
                      source: nat -> Sample, answers: nat -> bool, responses: nat -> Response)
    returns (optimized: Patient, final: Patient, cycle: int, completed: bool)
    ensures var g := ChooseRegimen(stage, heartHealth, lungHealth, bulkyTumors);
      && optimized.numCycles == g.Cycles() && optimized.weeksPerCycle == g.WeeksPerCycle()
      && optimized.breakWeeks == g.BreakWeeks()
      && NonNegative(optimized) && Cost(optimized) <= (6 * g.WeeksPerCycle()) as real
    ensures optimized.stage == stage && optimized.heartHealth == heartHealth
         && optimized.lungHealth == lungHealth && optimized.bulkyTumors == bulkyTumors
    ensures var g := ChooseRegimen(stage, heartHealth, lungHealth, bulkyTumors);
      var initial := Patient(stage, heartHealth, lungHealth, bulkyTumors, g.Cycles(), g.WeeksPerCycle(),
                             g.BreakWeeks(), 5 * g.WeeksPerCycle(), 2 * g.WeeksPerCycle());
      optimized == Run(initial, source, ColdIteration).best
    ensures 1 <= cycle <= optimized.numCycles + 1
    ensures cycle <= optimized.numCycles ==> !answers(cycle)
    ensures final == AfterCycles(optimized, responses, cycle - 1)
    ensures forall k :: 1 <= k < cycle ==> answers(k)
    ensures completed <==> cycle == optimized.numCycles + 1
    ensures completed <==> forall k :: 1 <= k <= optimized.numCycles ==> answers(k)
  {
    var data := new PatientData(stage, heartHealth, lungHealth, bulkyTumors);
    ChooseTreatmentMethod(data);
    GenerateInitialSchedule(data);
    SimulatedAnnealing(data, source);
    optimized := data.Value();
    cycle, completed := TreatmentCycles(data, answers, responses);
    final := data.Value();
  }

  /** The cycle loop of `main`: adjust while cycles remain and the clinician
      answers yes; `completed` is the branch that reports all cycles completed. */
  method TreatmentCycles(data: PatientData, answers: nat -> bool, responses: nat -> Response)
    returns (cycle: int, completed: bool)
    modifies data
    ensures 1 <= cycle && (cycle == 1 || cycle <= data.numCycles + 1)
    ensures data.Value() == AfterCycles(old(data.Value()), responses, cycle - 1)
    ensures forall k :: 1 <= k < cycle ==> answers(k)
    ensures cycle <= data.numCycles ==> !answers(cycle)
    ensures completed <==> cycle > data.numCycles
    ensures completed <==> forall k :: 1 <= k <= data.numCycles ==> answers(k)
  {
    ghost var start := data.Value();
    cycle := 1;
    while cycle <= data.numCycles && answers(cycle)
      invariant 1 <= cycle && (cycle == 1 || cycle <= data.numCycles + 1)
      invariant data.Value() == AfterCycles(start, responses, cycle - 1)
      invariant forall k :: 1 <= k < cycle ==> answers(k)
    {
      AdjustNextCycle(data, responses(cycle));
      cycle := cycle + 1;
    }
    completed := cycle > data.numCycles;
  }
}

=== FILE: cooling.dfy ===
/**
 * The geometric cooling of Code.c's annealing loop, in exact arithmetic:
 * the temperature starts at 1000.0 and is multiplied by 0.95 at the start of
 * every iteration; the loop stops once it falls below 0.001.
 */
module Cooling {

  const InitialTemperature: real := 1000.0
  const CoolingRate: real := 0.95
  const MinTemperature: real := 0.001

  /** The iteration after which the temperature is first below MinTemperature. */
  const ColdIteration: nat := 270

  /** 0.95 raised to the n. */
  function Decay(n: nat): real
  {
    if n == 0 then 1.0 else Decay(n - 1) * CoolingRate
  }

  lemma {:induction false} DecayInUnitInterval(n: nat)
    ensures 0.0 < Decay(n) <= 1.0
  {
    if n > 0 {
      DecayInUnitInterval(n - 1);
    }
  }

  /** The temperature after k coolings. */
  function Temperature(k: nat): real
  {
    InitialTemperature * Decay(k)
  }

  lemma {:induction false} DecayAdd(m: nat, n: nat)
    ensures Decay(m + n) == Decay(m) * Decay(n)
    decreases n
  {
    if n > 0 {
      DecayAdd(m, n - 1);
    }
  }

  lemma {:induction false} DecayAntitone(j: nat, k: nat)
    requires j <= k
    ensures Decay(k) <= Decay(j)
    decreases k - j
  {
    if j < k {
      DecayAntitone(j, k - 1);
      DecayInUnitInterval(k - 1);
    }
  }

  /** Products of non-negative bounds bound the product. */
  lemma MulBounds(a: real, x: real, b: real, c: real, y: real, z: real)
    requires 0.0 <= a <= x <= b && 0.0 <= c <= y <= z
    ensures a * c <= x * y <= b * z
  {
  }

  lemma Decay8()
    ensures Decay(8) == 0.6634204312890625
  {
  }

  /** Squaring carries bounds on 0.95^n over to 0.95^(2n). */
  lemma SquareBounds(n: nat, lo: real, hi: real, lo2: real, hi2: real)
    requires 0.0 <= lo <= Decay(n) <= hi
    requires lo2 <= lo * lo && hi * hi <= hi2
    ensures lo2 <= Decay(2 * n) <= hi2
  {
    DecayAdd(n, n);
    MulBounds(lo, Decay(n), hi, lo, Decay(n), hi);
  }

  /** Rational bounds on 0.95^256, by five squarings from 0.95^8; `e` stands
      for 8 and is a parameter so that the solver does not evaluate the
      powers of 0.95 digit by digit. */
  lemma Decay256Bounds(e: nat)
    requires e == 8
    ensures 0.00000198249 <= Decay(32 * e) <= 0.00000198272
  {
    Decay8();
    SquareBounds(e, 0.6634204312890625, 0.6634204312890625, 0.440126, 0.440127);
    SquareBounds(2 * e, 0.440126, 0.440127, 0.19371, 0.193712);
    SquareBounds(4 * e, 0.19371, 0.193712, 0.0375235, 0.0375244);
    SquareBounds(8 * e, 0.0375235, 0.0375244, 0.00140801, 0.00140809);
    SquareBounds(16 * e, 0.00140801, 0.00140809, 0.00000198249, 0.00000198272);
  }

  /** After 270 coolings the temperature is below the threshold. */
  lemma ColdAtColdIteration()
    ensures Temperature(ColdIteration) < MinTemperature
  {
    Decay256Bounds(8);
    Decay8();
    assert Decay(14) <= 0.4877 by {
      assert Decay(2) == 0.9025;
      assert Decay(4) == 0.81450625 by { DecayAdd(2, 2); }
      DecayAdd(8, 4);
      DecayAdd(12, 2);
    }
    DecayAdd(256, 14);
    MulBounds(0.0, Decay(256), 0.00000198272, 0.0, Decay(14), 0.4877);
  }

  /** Before iteration 270 the temperature is still at or above the threshold. */
  lemma WarmBeforeColdIteration(k: nat)
    requires k < ColdIteration
    ensures Temperature(k) >= MinTemperature
  {
    Decay256Bounds(8);
    Decay8();
    assert Decay(13) >= 0.5133 by {
      assert Decay(2) == 0.9025;
      assert Decay(4) == 0.81450625 by { DecayAdd(2, 2); }
      DecayAdd(8, 4);
      assert Decay(13) == Decay(12) * CoolingRate;
    }
    DecayAdd(256, 13);
    MulBounds(0.00000198249, Decay(256), 1.0, 0.5133, Decay(13), 1.0);
    DecayAntitone(k, 269);
  }
}

=== FILE: schedule.dfy ===
/**
 * Values shared by the console planner (Code.c) and the web planner
 * (lymphoma_web/app.py): the patient record, the regimen table, the cost of a
 * schedule, the annealing neighbour and the patient-response thresholds.
 */
module Schedule {

  /** One offset drawn by `rand() % 5 - 2` (C) or `random.randint(-2, 2)` (Python). */
  type Offset = x: int | -2 <= x <= 2

  /** The patient record as a value: the four intake answers, the regimen's
      three numbers and the schedule of the current cycle. */
  datatype Patient = Patient(
    stage: int, heartHealth: int, lungHealth: int, bulkyTumors: int,
    numCycles: int, weeksPerCycle: int, breakWeeks: int,
    treatmentDays: int, breakDays: int)

  /** q agrees with p everywhere except, possibly, in the two schedule fields. */
  predicate OnlyScheduleDiffers(p: Patient, q: Patient)
  {
    q == p.(treatmentDays := q.treatmentDays, breakDays := q.breakDays)
  }

  /** The floor the planners keep on both schedule fields. */
  predicate NonNegative(p: Patient)
  {
    p.treatmentDays >= 0 && p.breakDays >= 0
  }

  /** The record as the programs hold it: a C struct written through a
      pointer, or a Python object whose attributes are assigned. */
  class PatientData {
    var stage: int
    var heartHealth: int
    var lungHealth: int
    var bulkyTumors: int
    var numCycles: int
    var weeksPerCycle: int
    var breakWeeks: int
    var treatmentDays: int
    var breakDays: int

    /** Python's `PatientData.__init__`, with its defaults of zero. */
    constructor (stage: int, heartHealth: int, lungHealth: int, bulkyTumors: int,
                 numCycles: int := 0, weeksPerCycle: int := 0, breakWeeks: int := 0,
                 treatmentDays: int := 0, breakDays: int := 0)
      ensures Value() == Patient(stage, heartHealth, lungHealth, bulkyTumors,
                                 numCycles, weeksPerCycle, breakWeeks, treatmentDays, breakDays)
    {
      this.stage := stage;
      this.heartHealth := heartHealth;
      this.lungHealth := lungHealth;
      this.bulkyTumors := bulkyTumors;
      this.numCycles := numCycles;
      this.weeksPerCycle := weeksPerCycle;
      this.breakWeeks := breakWeeks;
      this.treatmentDays := treatmentDays;
      this.breakDays := breakDays;
    }

    function Value(): Patient
      reads this
    {
      Patient(stage, heartHealth, lungHealth, bulkyTumors,
              numCycles, weeksPerCycle, breakWeeks, treatmentDays, breakDays)
    }

    /** Struct assignment `*data = p`. */
    method Assign(p: Patient)
      modifies this
      ensures Value() == p
    {
      stage, heartHealth, lungHealth, bulkyTumors := p.stage, p.heartHealth, p.lungHealth, p.bulkyTumors;
      numCycles, weeksPerCycle, breakWeeks := p.numCycles, p.weeksPerCycle, p.breakWeeks;
      treatmentDays, breakDays := p.treatmentDays, p.breakDays;
    }
  }

  /** The four preset regimens and their (cycles, weeks per cycle, break weeks). */
  datatype Regimen = ABVD | StanfordV | AAVD | BEACOPP {
    function Cycles(): int
    {
      match this
      case ABVD => 6
      case StanfordV => 12
      case AAVD => 4
      case BEACOPP => 8
    }

    function WeeksPerCycle(): int
    {
      match this
      case ABVD => 4
      case StanfordV => 3
      case AAVD => 6
      case BEACOPP => 3
    }

    function BreakWeeks(): int
    {
      match this
      case ABVD => 1
      case StanfordV => 0
      case AAVD => 2
      case BEACOPP => 1
    }
  }

  /** The first-match rule table of `choose_treatment_method`; `bulky` is a C
      truth value (non-zero means yes), as is Python's truthiness of an int. */
  function ChooseRegimen(stage: int, heart: int, lung: int, bulky: int): (g: Regimen)
    ensures g == ABVD ==> stage <= 2 && bulky == 0 && heart > 60 && lung > 60
    ensures g == StanfordV ==> stage <= 2 && bulky != 0 && heart > 50 && lung > 50
    ensures g == AAVD ==> stage > 2 && heart > 50 && lung > 50
    ensures heart <= 50 || lung <= 50 ==> g == BEACOPP
  {
    if stage <= 2 && heart > 60 && lung > 60 && bulky == 0 then ABVD
    else if stage <= 2 && heart > 50 && lung > 50 && bulky != 0 then StanfordV
    else if stage > 2 && heart > 50 && lung > 50 then AAVD
    else BEACOPP
  }

  /** Each rule fires exactly when its own condition holds and no earlier one does;
      BEACOPP is what is left. */
  lemma RegimenIsFirstMatch(stage: int, heart: int, lung: int, bulky: int)
    ensures var g := ChooseRegimen(stage, heart, lung, bulky);
      var early, bulk := stage <= 2, bulky != 0;
      && (g == ABVD <==> early && !bulk && heart > 60 && lung > 60)
      && (g == StanfordV <==> early && bulk && heart > 50 && lung > 50)
      && (g == AAVD <==> !early && heart > 50 && lung > 50)
      && (g == BEACOPP <==> (&& !(early && !bulk && heart > 60 && lung > 60)
                             && !(early && bulk && heart > 50 && lung > 50)
                             && !(!early && heart > 50 && lung > 50)))
  {
  }

  /** Healthier heart and lungs never move a patient off a regimen other than BEACOPP. */
  lemma RegimenStableUnderRecovery(stage: int, heart: int, lung: int, bulky: int, heart': int, lung': int)
    requires heart <= heart' && lung <= lung'
    requires ChooseRegimen(stage, heart, lung, bulky) != BEACOPP
    ensures ChooseRegimen(stage, heart', lung', bulky) == ChooseRegimen(stage, heart, lung, bulky)
  {
  }

  /** The schedule `generate_initial_schedule` derives from a preset: five
      weekdays of treatment and two weekend days of rest per week. */
  lemma InitialScheduleOfRegimen(g: Regimen)
    ensures var t, b := 5 * g.WeeksPerCycle(), 2 * g.WeeksPerCycle();
      && (t, b) in {(20, 8), (15, 6), (30, 12)}
      && Cost(Patient(0, 0, 0, 0, 0, 0, 0, t, b)) == (6 * g.WeeksPerCycle()) as real
  {
  }

  /** `cost_function`: one unit per treatment day, half a unit per break day.
      Every term is a small integer or a half, so the double is exact. */
  function Cost(p: Patient): (c: real)
    ensures 2.0 * c == (2 * p.treatmentDays + p.breakDays) as real
    ensures NonNegative(p) ==> c >= 0.0
  {
    p.treatmentDays as real * 1.0 + p.breakDays as real * 0.5
  }

  /** More days of either kind, and no fewer of the other, cost strictly more. */
  lemma CostStrictlyIncreasing(p: Patient, q: Patient)
    requires p.treatmentDays <= q.treatmentDays && p.breakDays <= q.breakDays
    requires p.treatmentDays < q.treatmentDays || p.breakDays < q.breakDays
    ensures Cost(p) < Cost(q)
  {
  }

  lemma CostExamples(p: Patient)
    ensures Cost(p.(treatmentDays := 20, breakDays := 8)) == 24.0
    ensures Cost(p.(treatmentDays := 0, breakDays := 0)) == 0.0
  {
  }

  /** The floor at zero applied after every change of a schedule field. */
  function Clamp(x: int): (r: nat)
    ensures x <= r && (r == x || r == 0)
  {
    if x < 0 then 0 else x
  }

  /** An annealing candidate: each schedule field of `p` moved by its own
      offset, then floored at zero; nothing else is copied differently. */
  function Neighbour(p: Patient, dt: Offset, db: Offset): (q: Patient)
    ensures OnlyScheduleDiffers(p, q) && NonNegative(q)
    ensures p.treatmentDays + dt >= 0 ==> q.treatmentDays == p.treatmentDays + dt
    ensures p.breakDays + db >= 0 ==> q.breakDays == p.breakDays + db
    ensures p.treatmentDays + dt < 0 ==> q.treatmentDays == 0
    ensures p.breakDays + db < 0 ==> q.breakDays == 0
    ensures NonNegative(p) ==>
      -2 <= q.treatmentDays - p.treatmentDays <= 2 && -2 <= q.breakDays - p.breakDays <= 2
  {
    p.(treatmentDays := Clamp(p.treatmentDays + dt), breakDays := Clamp(p.breakDays + db))
  }

  /** What an annealing search carries from one iteration to the next: the
      state it moves from and the cheapest state it has accepted so far. */
  datatype Search = Search(current: Patient, best: Patient)

  /** The eight numbers entered after a cycle. */
  datatype Response = Response(
    tolerance: int, recovery: int, wbc: int, rbc: int, plateletCount: int,
    tumorChange: int, heartHealth: int, lungHealth: int)

  /** The patient is coping badly: any one weak reading is enough. */
  predicate PoorResponse(r: Response)
  {
    r.tolerance < 50 || r.recovery < 50 || r.wbc < 4 || r.rbc < 3 ||
    r.plateletCount < 100 || r.heartHealth < 50 || r.lungHealth < 50
  }

  /** The tumour shrank and the patient tolerates and recovers well. */
  predicate GoodResponse(r: Response)
  {
    r.tumorChange < 0 && r.tolerance > 70 && r.recovery > 70
  }

  /** The two rules are not exclusive: a low white-cell count alone makes the
      response poor while tolerance and recovery are high. */
  lemma BothRulesCanFire()
    ensures var r := Response(80, 80, 3, 4, 150, -5, 70, 70);
      PoorResponse(r) && GoodResponse(r)
  {
  }
}

=== FILE: versions.dfy ===
/**
 * Where the console planner (Code.c) and the web planner
 * (lymphoma_web/app.py) agree and where they part.
 */
module Versions {
  import opened Schedule
  import CProgram
  import WebApp

  /** On a schedule with no negative break days, the two adjustments give the
      same result exactly when the two rules do not fire together. */
  lemma AdjustmentsAgreeUnlessBothFire(p: Patient, r: Response)
    requires p.breakDays >= 0
    ensures CProgram.Adjusted(p, r) == WebApp.Adjusted(p, r) <==> !(PoorResponse(r) && GoodResponse(r))
  {
  }

  /** From (20, 8), a low white-cell count with high tolerance and recovery
      and a shrinking tumour fires both rules: the console planner ends at
      (19, 9), the web planner at (18, 10). */
  lemma DivergingAdjustment(p: Patient)
    requires p.treatmentDays == 20 && p.breakDays == 8
    ensures var r := Response(80, 80, 3, 4, 150, -5, 70, 70);
      && CProgram.Adjusted(p, r) == p.(treatmentDays := 19, breakDays := 9)
      && WebApp.Adjusted(p, r) == p.(treatmentDays := 18, breakDays := 10)
  {
  }

  /** Two readings where only one rule fires, and the versions agree: a low
      tolerance gives (18, 10), a healthy shrinking response (21, 7). */
  lemma AgreeingAdjustments(p: Patient)
    requires p.treatmentDays == 20 && p.breakDays == 8
    ensures var poor := Response(40, 80, 5, 4, 150, -5, 70, 70);
      var good := Response(80, 80, 5, 4, 150, -5, 70, 70);
      && CProgram.Adjusted(p, poor) == WebApp.Adjusted(p, poor) == p.(treatmentDays := 18, breakDays := 10)
      && CProgram.Adjusted(p, good) == WebApp.Adjusted(p, good) == p.(treatmentDays := 21, breakDays := 7)
  {
  }

  /** The best cost never exceeds the current one, so a candidate that beats
      the best also beats the current state: the web planner accepts it, and
      the console planner does too unless its draw is exactly 1.0. */
  lemma CheaperThanBestAcceptedByBoth(currentCost: real, bestCost: real, newCost: real,
                                      dc: CProgram.Draw, dw: WebApp.Draw)
    requires bestCost <= currentCost && newCost < bestCost && dc.u != 1.0
    ensures CProgram.Accepts(currentCost, newCost, dc) && WebApp.Accepts(bestCost, newCost, dw)
  {
  }

  /** The console planner compares with the current cost and the web planner
      with the best: a candidate that is cheaper than the current state but
      dearer than the best is certain for the first and left to the draw by
      the second. */
  lemma AcceptanceReferencesDiffer(dc: CProgram.Draw, dw: WebApp.Draw)
    requires dc.u != 1.0 && !dw.belowBoltzmann
    ensures CProgram.Accepts(26.0, 25.0, dc) && !WebApp.Accepts(24.0, 25.0, dw)
  {
  }
}
